=== FILE: README.md ===
# ooni-sync, modelled in Dafny

ooni-sync downloads OONI measurement reports into a local directory. It pages
through the OONI API's file index at increasing offsets. It checks each
index page's metadata and queues the download URLs it lists. A pool of
workers downloads every report that is not already present. Each download
goes to a temp file that is then renamed to its final name. A coordinator
loop in `main` tracks the temp files, counts errors, and handles SIGINT. At
the end it removes the temp files that are left and exits with status 1
after any error or an interrupt.

This project models that core of `ooni-sync.go`:

- `text.dfy` (module `Text`): character helpers the code relies on.
  - `strings.ToUpper`, ASCII only.
  - `%d` rendering.
  - `strconv.ParseUint(v, 10, 32)`.
- `paths.dfy` (module `Paths`): `path.Base` and the local file name of a
  download.
- `progress.dfy` (module `Progress`): `progressCounter.format`, the "n/total"
  prefix of progress lines.
- `query.dfy` (module `Query`): the query string.
  - `parseArgsToQuery`.
  - `canonicalizeQuery`.
  - The parameter override of `fetchIndexPage`.
- `index.dfy` (module `Index`): the paginator `processIndex`.
  - It runs over a finite sequence of server responses, one per request.
  - It is proved against a recursive specification, `Run`.
  - `Run` is in turn characterised page by page (which pages are accepted,
    which offsets are requested, and which URLs are queued).
- `download.dfy` (module `Download`): one worker's handling of one URL.
  - `maybeDownload`, `downloadToTmpFile` and `downloadToWriteCloser`.
  - The "first error wins" rule of the deferred `Close` calls.
  - The order of the worker's actions.
  - Every network and file-system outcome is an input.
- `coordinator.dfy` (module `Coordinator`): the `select` loop and the cleanup
  sweep of `main`.
  - A class `Coordinator` holds the fields the loop updates: the temp-name
    set, the error count, the signal flag and the progress counter.
  - The class has one method per event.
  - The three channels become one sequential list of events.
  - `os.Rename` and `os.Remove` outcomes are inputs (`renameOk`, and the set
    `removeFails` of names whose removal fails).
- `wrappers.dfy` (module `Wrappers`): `Option` and `Result`.

A URL path ending in a slash raises no error: `path.Base` drops the slash and
the file is named after the last non-empty segment
(`Paths.BaseIgnoresTrailingSlash`).

## Model

| member | source | states |
|---|---|---|
| Text.ToUpper | ooni-sync.go:366 | upper-casing keeps the length, maps each character on its own, and leaves no lower-case letter |
| Text.ToUpperIdempotent | ooni-sync.go:366 | upper-casing an upper-cased value changes nothing |
| Text.ToUpperKeepsDigits | ooni-sync.go:371-374 | upper-casing keeps a digits-only value unchanged, and a value is digits-only after upper-casing exactly when it was before |
| Text.Dec | ooni-sync.go:135 | the `%d` rendering is a non-empty digit string without a leading zero |
| Text.ValueOfDec | ooni-sync.go:135 | reading back the decimal rendering of a number yields the number |
| Text.DecOfValue | ooni-sync.go:135 | a digit string without a leading zero is the rendering of its own value |
| Text.DecLengthMonotone | ooni-sync.go:135-136 | a smaller number never has a longer rendering |
| Text.ParseUint32 | ooni-sync.go:371 | parsing succeeds exactly on a non-empty all-digit string whose value is below 2^32 |
| Text.ParseUint32OfDec | ooni-sync.go:371 | the rendering of every 32-bit number parses back to that number |
| Paths.Base | ooni-sync.go:222 | `path.Base` gives "." for the empty path, "/" for a path of only slashes, a slash-free path itself, and otherwise a non-empty name that is "/" or holds no slash |
| Paths.LocalName | ooni-sync.go:222 | the local name starts with the output directory and a slash and ends with the extension; unless the URL path's base is "/", the part between them is a non-empty slash-free name, so the file sits directly in the output directory, and with the extension removed its base is the base of the URL path, so the file is named after the URL's last segment |
| Paths.BaseIgnoresTrailingSlash | ooni-sync.go:222 | a trailing slash on a non-empty URL path does not change the file name |
| Paths.BaseOfJoin | ooni-sync.go:222 | the base of a name placed in a directory is that name: `Base` inverts the join |
| Progress.Format | ooni-sync.go:134-137 | for any `n` and total, the line is left padding of spaces only, then the rendering of `n`, a slash, and the rendering of the total; the field before the slash is as wide as the total's rendering, or as `n`'s when that is wider, so a count past the total gets no padding |
| Progress.FormatAligned | ooni-sync.go:134-137 | while `n` is at most the total, the counter field is exactly as wide as the total, holds `n` padded with spaces on the left, and the slash is always in the same column |
| Query.Add | ooni-sync.go:352 | `url.Values.Add` appends the value to the key's list and leaves every other key alone |
| Query.SplitArg | ooni-sync.go:348 | splitting fails exactly when there is no "="; otherwise the argument is the key, "=", then the value, and the key holds no "=" |
| Query.SplitArgOfJoined | ooni-sync.go:348 | splitting inverts joining a key without "=" to a value |
| Query.FirstMalformed | ooni-sync.go:349 | the index of the first rejected argument: all earlier arguments are well-formed and that one is not |
| Query.AddArgsCollects | ooni-sync.go:346-353 | after the loop, each key holds the values of the arguments naming it, in argument order, and a key is present exactly when some argument names it |
| Query.ParseArgsToQuery | ooni-sync.go:345-355 | there is no error exactly when every argument is well-formed; on error it names the first malformed argument and returns the query built from the arguments before it |
| Query.Canonical | ooni-sync.go:360-382 | a key is kept exactly when it is not `probe_cc`/`probe_asn` or its list is non-empty; other keys keep their lists, list lengths are kept, `probe_cc` values are upper-cased, and `probe_asn` values get "AS" when they are a 32-bit number and are then upper-cased |
| Query.CanonicalIdempotent | ooni-sync.go:360-382 | canonicalising a canonical query changes nothing: "AS" is never added twice |
| Query.AddCanonValues | ooni-sync.go:365-376 | the inner loop adds the rewritten values of one key in order, and an empty list adds no key |
| Query.CanonicalizeQuery | ooni-sync.go:360-382 | the loop over the keys, in any order, yields the canonical query |
| Query.IndexQuery | ooni-sync.go:250-264 | the request query holds the user's keys plus "order", "limit" and "offset", set to "asc" and the renderings of the limit and offset, and every other user key unchanged |
| Query.BuildIndexQuery | ooni-sync.go:250-264 | the copy loop followed by the three `Set` calls yields the request query |
| Index.Rejection | ooni-sync.go:303-318 | a page is accepted exactly when its limit is 1000, its offset is the requested one, it has a result unless the count is 0, and the new offset does not pass the count; the limit check comes first, then the offset check (the last check is at ooni-sync.go:326) |
| Index.ProcessIndex | ooni-sync.go:295-342 | the loop computes the specification `Run` from offset 0; the first request is at offset 0; on success the number of URLs queued equals the last count |
| Index.Run | ooni-sync.go:297-339 | the reference run from a start offset: its first request is at that offset, and it makes at most one request more than there are responses |
| Index.RunTotal | ooni-sync.go:320-336 | on success, the start offset plus the number of URLs queued equals the total, and no request went past the last response |
| Index.Emit | ooni-sync.go:330-332 | the page's URLs are appended to the queue in order |
| Index.RunPrefix | ooni-sync.go:297-339 | while pages are accepted without reaching their count, the run queues exactly their URLs, requests exactly their offsets, and carries the last count as the total |
| Index.RunSucceedsWhen | ooni-sync.go:320-341 | a run whose page `n` is accepted and brings the offset to its count succeeds, with the URLs of its `n` pages, the last count as total, and `n` requests |
| Index.RunFailsAt | ooni-sync.go:298-328 | a run whose request `k` fails has an error, has queued the URLs of the first `k` pages only, has made `k+1` requests, and for a fetched page reports that page's rejection |
| Index.RunSuccessShape | ooni-sync.go:334-341 | every successful run completes at its last request |
| Index.RunFailureShape | ooni-sync.go:298-328 | every failed run went on for all its requests but the last, and that one failed |
| Index.UrlsOfAppend | ooni-sync.go:330-332 | the URLs of two response lists joined are the URLs of each, joined |
| Index.OffsetStep | ooni-sync.go:324 | each requested offset is the previous one plus the number of results of the previous page |
| Download.FirstError | ooni-sync.go:170-175 | the combined error is absent exactly when both are absent, and the first error wins |
| Download.DownloadToWriter | ooni-sync.go:164-182 | succeeds exactly on a 200 response whose copy and body close both succeed; a request error is returned as it is, a bad status as its own error, and a copy error before a close error; when the request, the status and the copy all succeed, the result is exactly the body's close error |
| Download.DownloadToTmpFile | ooni-sync.go:188-209 | a creation failure returns no name; otherwise the temp name is reported right after creation and before the filter or the download; a filter failure returns no name and that error; otherwise the created name comes back with the download's error, or else the writer's close error (the first error wins); success needs every step to succeed |
| Download.MaybeDownload | ooni-sync.go:213-235 | a parse error sets only the error; the local name is derived from the URL path; an existing file gives "exists" with no download; a stat failure gives that error; a missing file starts a download whose steps (first: create the temp file, which is then reported even when the filter fails), name and error are the worker's, so the result is an error exactly when some download step failed; a returned temp name was reported; a result that is neither an error nor "exists" comes from a complete, error-free transfer into the created temp file |
| Coordinator.ExitCode | ooni-sync.go:520-525 | the exit status is 0 or 1, and 0 exactly when there were no errors and no signal |
| Coordinator.StatusOf | ooni-sync.go:488-503 | a result logs OK exactly when it has no error, is not an existing file and its rename succeeds; "exists" exactly when it has no error and the file exists; and an error exactly when it carries an error or its rename fails |
| Coordinator.Handle | ooni-sync.go:482-507 | one event adds one error exactly for a failed result and one progress step per result; a signal sets the flag for good; a reported temp name is tracked; a published result stops tracking its temp name; other events leave the names alone |
| Coordinator.Loop | ooni-sync.go:479-509 | the loop never lowers the error count or the progress counter, never clears the signal flag, and with no events changes nothing |
| Coordinator.Consumed | ooni-sync.go:479-509 | the loop handles a prefix of the events, none of which stops it, up to the first stop event |
| Coordinator.LoopSummary | ooni-sync.go:479-509 | after the loop, the tracked names are those noticed minus those published, one error is counted per failed result, one progress step per result, and the signal flag is set exactly when a signal stopped the loop |
| Coordinator.CleanRun | ooni-sync.go:479-525 | a run exits 0 exactly when no signal stopped it, no result failed, and every leftover temp file was removed |
| Coordinator.CleanedUp | ooni-sync.go:512-518 | the sweep keeps the names, the signal flag and the progress counter, never lowers the error count, and leaves it unchanged exactly when no tracked name fails to be removed |
| Coordinator.Coordinator.constructor | ooni-sync.go:470-473 | the books start empty: no names, no errors, no signal |
| Coordinator.Coordinator.NoteTemp | ooni-sync.go:482-483 | a reported temp name is added to the tracked set |
| Coordinator.Coordinator.Record | ooni-sync.go:484-504 | an error is counted; an existing file is skipped; a rename that fails is counted and its temp file stays tracked; a rename that succeeds stops tracking the temp file; the status matches the log line |
| Coordinator.Coordinator.Signal | ooni-sync.go:505-507 | SIGINT sets the signal flag |
| Coordinator.Coordinator.Serve | ooni-sync.go:479-509 | the select loop leaves the books as the specification `Loop` does |
| Coordinator.Coordinator.Cleanup | ooni-sync.go:512-518 | every tracked temp name is tried exactly once, and each failed removal adds one error |
| Coordinator.Coordinator.ExitStatus | ooni-sync.go:520-525 | the status is 0 exactly when no error was counted and no signal arrived |
| Coordinator.Coordinate | ooni-sync.go:469-525 | the whole coordinator exits with the status of the books after the loop and the sweep, and tries to remove each temp name left tracked exactly once |

## Left out

- HTTP requests, JSON decoding and the index URL's encoding (`fetchIndexPage` beyond its query building): each request's result is an input `Response` (a decoded page, or a failure).
- The xz filter and the plain file writer: whether the filter starts and whether closing it fails are inputs.
- File-system calls (`ioutil.TempFile`, `os.Stat`, `os.Rename`, `os.Remove`, `os.MkdirAll`): their outcomes are inputs.
- Goroutines, channels, `select` and the wait group: the coordinator receives one sequential list of events. The worker loop `downloadFromChan` is one `MaybeDownload` per URL.
- The end of the event list stops the select loop just as a closed result channel does.
- Coordinator.LoopSummary and Coordinator.CleanRun assume that a temp name, once renamed away, is never reported again (`FreshNames`). `ioutil.TempFile` could in principle reuse a freed name. `Loop` itself handles that case; only these two summaries assume it does not happen.
- Index.Run: a request after the last modelled response ends the run with the modelling error `NoResponse`. The real program would keep requesting.
- `url.Parse` is opaque: its result (the URL path, or an error) is an input.
- Paths.LocalName: `filepath.Join` is modelled as directory, slash, name, without the lexical clean-up. For example, directory "." gives "./x" rather than "x".
- Text.ToUpper: only ASCII letters are upper-cased. Go's Unicode case mapping is not modelled.
- Index.ProcessIndex: offsets and counts are unbounded naturals. The 64-bit `uint` wrap-around of the offset sum is not modelled. The same holds for `numErrors` and the progress counter in Coordinator.
- Log printing is not modelled (`logOK`, `logExists`, `logError` and the error messages), apart from the "n/total" prefix (`Progress.Format`) and which log line a result produces (`Coordinator.StatusOf`).
- Command-line flags, `usage`, and the choice of extension and filter by `-xz` are not modelled. The output directory and extension are parameters.
- `main`'s exit on a paginator error (ooni-sync.go:448-452) is not modelled. The paginator's error is part of `Index.Outcome`.

=== FILE: coordinator.dfy ===
/**
 * The coordinator of `main`: the `select` loop over temp-file notices,
 * download results and the interrupt signal, the removal sweep over the
 * temp files still tracked, and the exit status. The three channels become
 * one sequential list of events; file-system outcomes are inputs.
 */
module Coordinator {
  import opened Download

  datatype Event =
    | TempCreated(name: string)                     // a name received on the temp-name channel
    | Finished(r: DownloadResult, renameOk: bool)   // a result; `renameOk` is what `os.Rename` would give
    | ResultsClosed                                 // the result channel was closed: every worker is done
    | Interrupted                                   // SIGINT

  /** The coordinator's books: tracked temp names, error count, signal flag, and `progress.n`. */
  datatype State = State(tracked: set<string>, numErrors: nat, signalled: bool, completed: nat)

  const Init := State({}, 0, false, 0)

  /** Which progress line a result produces: "ok", "exists" or "error". */
  datatype Status = Ok | AlreadyThere | Failed

  function StatusOf(r: DownloadResult, renameOk: bool): (st: Status)
    ensures st == Ok <==> Publishes(r, renameOk)
    ensures st == AlreadyThere <==> r.err.None? && r.alreadyExists
    ensures st == Failed <==> r.err.Some? || (!r.alreadyExists && !renameOk)
  {
    if r.err.Some? then Failed
    else if r.alreadyExists then AlreadyThere
    else if renameOk then Ok
    else Failed
  }

  /** The result's temp file is renamed to its final name. */
  predicate Publishes(r: DownloadResult, renameOk: bool)
  {
    r.err.None? && !r.alreadyExists && renameOk
  }

  /** One event's effect (ooni-sync.go lines 482-507). Every result advances the progress counter. */
  function Handle(s: State, e: Event): (t: State)
    ensures t.numErrors == s.numErrors + (if e.Finished? && StatusOf(e.r, e.renameOk) == Failed then 1 else 0)
    ensures t.completed == s.completed + (if e.Finished? then 1 else 0)
    ensures t.signalled == (s.signalled || e.Interrupted?)
    ensures e.TempCreated? ==> t.tracked == s.tracked + {e.name}
    ensures e.Finished? ==> t.tracked == if Publishes(e.r, e.renameOk) then s.tracked - {e.r.tmpName} else s.tracked
    ensures e.ResultsClosed? || e.Interrupted? ==> t.tracked == s.tracked
  {
    match e
    case TempCreated(name) => s.(tracked := s.tracked + {name})
    case Finished(r, renameOk) =>
      if r.err.Some? then s.(numErrors := s.numErrors + 1, completed := s.completed + 1)
      else if r.alreadyExists then s.(completed := s.completed + 1)
      else if renameOk then s.(tracked := s.tracked - {r.tmpName}, completed := s.completed + 1)
      else s.(numErrors := s.numErrors + 1, completed := s.completed + 1)
    case Interrupted => s.(signalled := true)
    case ResultsClosed => s
  }

  predicate Stops(e: Event) { e.ResultsClosed? || e.Interrupted? }

  /** The `select` loop: handle events until the result channel closes or a signal arrives. */
  function Loop(s: State, events: seq<Event>): (t: State)
    ensures t.numErrors >= s.numErrors && t.completed >= s.completed
    ensures s.signalled ==> t.signalled
    ensures events == [] ==> t == s
    decreases |events|
  {
    if events == [] then s
    else if Stops(events[0]) then Handle(s, events[0])
    else Loop(Handle(s, events[0]), events[1..])
  }

  /** The events the loop handles before it stops. */
  function Consumed(events: seq<Event>): (c: seq<Event>)
    ensures |c| <= |events| && c == events[..|c|]
    ensures forall i :: 0 <= i < |c| ==> !Stops(c[i])
    ensures |c| < |events| ==> Stops(events[|c|])
  {
    if events == [] || Stops(events[0]) then [] else [events[0]] + Consumed(events[1..])
  }

  /** The loop stopped because of the signal. */
  predicate StoppedBySignal(events: seq<Event>)
  {
    |Consumed(events)| < |events| && events[|Consumed(events)|].Interrupted?
  }

  // ----- Counting what a list of handled events did -----

  function Noticed(events: seq<Event>): set<string>
  {
    if events == [] then {}
    else
      (if events[0].TempCreated? then {events[0].name} else {}) + Noticed(events[1..])
  }

  function Published(events: seq<Event>): set<string>
  {
    if events == [] then {}
    else
      (if events[0].Finished? && Publishes(events[0].r, events[0].renameOk) then {events[0].r.tmpName} else {})
      + Published(events[1..])
  }

  function Failures(events: seq<Event>): nat
  {
    if events == [] then 0
    else
      (if events[0].Finished? && StatusOf(events[0].r, events[0].renameOk) == Failed then 1 else 0)
      + Failures(events[1..])
  }

  function Results(events: seq<Event>): nat
  {
    if events == [] then 0 else (if events[0].Finished? then 1 else 0) + Results(events[1..])
  }

  /** No temp name is reported again after its file was published (temp names are fresh). */
  ghost predicate FreshNames(events: seq<Event>)
  {
    forall i, j :: 0 <= i < j < |events| && events[i].Finished? && Publishes(events[i].r, events[i].renameOk) ==>
      events[j] != TempCreated(events[i].r.tmpName)
  }

  /**
   * What the loop leaves behind: the tracked set is every name noticed minus
   * every name published, one error per failed result, one progress step per
   * result, and the signal flag set exactly when a signal stopped the loop.
   */
  lemma {:induction false} LoopSummary(s: State, events: seq<Event>)
    requires FreshNames(events)
    ensures var c := Consumed(events);
      && Loop(s, events).tracked == (s.tracked + Noticed(c)) - Published(c)
      && Loop(s, events).numErrors == s.numErrors + Failures(c)
      && Loop(s, events).completed == s.completed + Results(c)
      && Loop(s, events).signalled == (s.signalled || StoppedBySignal(events))
    decreases |events|
  {
    if events != [] && !Stops(events[0]) {
      var e := events[0];
      var rest := events[1..];
      var c := Consumed(rest);
      FreshNamesTail(events);
      LoopSummary(Handle(s, e), rest);
      assert Consumed(events) == [e] + c;
      CountsCons(e, c);
      if e.Finished? && Publishes(e.r, e.renameOk) {
        NotNoticedAfterPublish(events);
      }
    }
  }

  lemma FreshNamesTail(events: seq<Event>)
    requires events != [] && FreshNames(events)
    ensures FreshNames(events[1..])
  {
    var rest := events[1..];
    forall i, j | 0 <= i < j < |rest| && rest[i].Finished? && Publishes(rest[i].r, rest[i].renameOk)
      ensures rest[j] != TempCreated(rest[i].r.tmpName)
    {
      assert events[i + 1] == rest[i] && events[j + 1] == rest[j];
    }
  }

  lemma CountsCons(e: Event, c: seq<Event>)
    ensures Noticed([e] + c) == (if e.TempCreated? then {e.name} else {}) + Noticed(c)
    ensures Published([e] + c) == (if e.Finished? && Publishes(e.r, e.renameOk) then {e.r.tmpName} else {}) + Published(c)
    ensures Failures([e] + c) == (if e.Finished? && StatusOf(e.r, e.renameOk) == Failed then 1 else 0) + Failures(c)
    ensures Results([e] + c) == (if e.Finished? then 1 else 0) + Results(c)
  {
    assert ([e] + c)[0] == e && ([e] + c)[1..] == c;
  }

  /** A published name is not noticed again among the events the loop handles afterwards. */
  lemma NotNoticedAfterPublish(events: seq<Event>)
    requires events != [] && FreshNames(events)
    requires events[0].Finished? && Publishes(events[0].r, events[0].renameOk)
    ensures events[0].r.tmpName !in Noticed(Consumed(events[1..]))
  {
    var t := events[0].r.tmpName;
    var c := Consumed(events[1..]);
    NoticedWitness(c, t);
    forall j | 0 <= j < |c| ensures c[j] != TempCreated(t) {
      assert events[j + 1] == c[j];
    }
  }

  lemma {:induction false} NoticedWitness(events: seq<Event>, name: string)
    ensures name in Noticed(events) ==> exists j :: 0 <= j < |events| && events[j] == TempCreated(name)
  {
    if events != [] {
      NoticedWitness(events[1..], name);
      if name in Noticed(events[1..]) {
        var j :| 0 <= j < |events[1..]| && events[1..][j] == TempCreated(name);
        assert events[j + 1] == TempCreated(name);
      }
    }
  }

  /** The removal sweep, as a change of the books: one more error per removal that fails. */
  function CleanedUp(s: State, removeFails: set<string>): (t: State)
    ensures t.tracked == s.tracked && t.signalled == s.signalled && t.completed == s.completed
    ensures t.numErrors >= s.numErrors
    ensures t.numErrors == s.numErrors <==> s.tracked !! removeFails
  {
    assert !(s.tracked !! removeFails) ==> |s.tracked * removeFails| > 0 by {
      if !(s.tracked !! removeFails) {
        var x :| x in s.tracked && x in removeFails;
        assert x in s.tracked * removeFails;
      }
    }
    s.(numErrors := s.numErrors + |s.tracked * removeFails|)
  }

  /** The bookkeeping of one step of the removal sweep. */
  lemma SweepStep(done: set<string>, pending: set<string>, attempted: seq<string>, name: string, removeFails: set<string>)
    requires name in pending && done !! pending && multiset(attempted) == multiset(done)
    ensures (done + {name}) !! (pending - {name}) && (done + {name}) + (pending - {name}) == done + pending
    ensures multiset(attempted + [name]) == multiset(done + {name})
    ensures |(done + {name}) * removeFails| == |done * removeFails| + (if name in removeFails then 1 else 0)
    ensures |pending - {name}| < |pending|
  {
    assert multiset(done + {name}) == multiset(done) + multiset{name};
    if name in removeFails {
      assert (done + {name}) * removeFails == done * removeFails + {name};
    } else {
      assert (done + {name}) * removeFails == done * removeFails;
    }
  }

  /** The process exit status: 1 after any error or a signal, 0 otherwise. */
  function ExitCode(s: State): (code: int)
    ensures code == 0 || code == 1
    ensures code == 0 <==> s.numErrors == 0 && !s.signalled
  {
    if s.numErrors > 0 || s.signalled then 1 else 0
  }

  /**
   * A run exits with status 0 exactly when the signal did not stop it, no
   * handled result failed, and every temp file left at the end was removed.
   */
  lemma CleanRun(events: seq<Event>, removeFails: set<string>)
    requires FreshNames(events)
    ensures ExitCode(CleanedUp(Loop(Init, events), removeFails)) == 0 <==>
      && !StoppedBySignal(events)
      && Failures(Consumed(events)) == 0
      && (Noticed(Consumed(events)) - Published(Consumed(events))) * removeFails == {}
  {
    LoopSummary(Init, events);
    assert Init.tracked + Noticed(Consumed(events)) == Noticed(Consumed(events));
  }

  /**
   * The coordinator as the code keeps it: a set of temp names (the map used as
   * a set), the error count, the signal flag, and the progress counter `n`.
   */
  class Coordinator {
    var tmpFilenames: set<string>
    var numErrors: nat
    var signalFlag: bool
    var completed: nat

    function Current(): State
      reads this
    {
      State(tmpFilenames, numErrors, signalFlag, completed)
    }

    constructor ()
      ensures Current() == Init
    {
      tmpFilenames, numErrors, signalFlag, completed := {}, 0, false, 0;
    }

    /** A name arrived on the temp-name channel: track it. */
    method NoteTemp(name: string)
      modifies this
      ensures Current() == Handle(old(Current()), TempCreated(name))
      ensures tmpFilenames == old(tmpFilenames) + {name}
    {
      tmpFilenames := tmpFilenames + {name};
    }

    /**
     * A result arrived: an error is counted, an existing file skipped; otherwise
     * the temp file is renamed, and on success no longer tracked, on failure
     * counted as an error and kept for the sweep.
     */
    method Record(r: DownloadResult, renameOk: bool) returns (status: Status)
      modifies this
      ensures Current() == Handle(old(Current()), Finished(r, renameOk))
      ensures status == StatusOf(r, renameOk)
      ensures tmpFilenames == if Publishes(r, renameOk) then old(tmpFilenames) - {r.tmpName} else old(tmpFilenames)
      ensures numErrors == old(numErrors) + (if status == Failed then 1 else 0)
    {
      if r.err.Some? {
        status := Failed;
        numErrors := numErrors + 1;
      } else if r.alreadyExists {
        status := AlreadyThere;
      } else if !renameOk {
        status := Failed;
        numErrors := numErrors + 1;
      } else {
        tmpFilenames := tmpFilenames - {r.tmpName};
        status := Ok;
      }
      completed := completed + 1;
    }

    /** SIGINT arrived. */
    method Signal()
      modifies this
      ensures Current() == Handle(old(Current()), Interrupted)
    {
      signalFlag := true;
    }

    /** The `select` loop over a list of events. */
    method Serve(events: seq<Event>)
      modifies this
      ensures Current() == Loop(old(Current()), events)
    {
      var i := 0;
      while i < |events|
        invariant i <= |events|
        invariant Loop(old(Current()), events) == Loop(Current(), events[i..])
      {
        assert events[i..][1..] == events[i + 1..];
        match events[i] {
          case TempCreated(name) =>
            NoteTemp(name);
          case Finished(r, renameOk) =>
            var _ := Record(r, renameOk);
          case ResultsClosed =>
            return;
          case Interrupted =>
            Signal();
            return;
        }
        i := i + 1;
      }
    }

    /**
     * The sweep: try to remove every tracked temp file once, in some order,
     * counting each failed removal and going on. `removeFails` holds the names
     * whose `os.Remove` fails. Returns the names tried, in order: each
     * tracked name exactly once.
     */
    method Cleanup(removeFails: set<string>) returns (attempted: seq<string>)
      modifies this`numErrors
      ensures numErrors == old(numErrors) + |tmpFilenames * removeFails|
      ensures multiset(attempted) == multiset(tmpFilenames)
    {
      attempted := [];
      var pending := tmpFilenames;
      ghost var done: set<string> := {};
      while pending != {}
        invariant done + pending == tmpFilenames && done !! pending
        invariant multiset(attempted) == multiset(done)
        invariant numErrors == old(numErrors) + |done * removeFails|
        modifies this`numErrors
        decreases |pending|
      {
        var name :| name in pending;
        SweepStep(done, pending, attempted, name, removeFails);
        attempted := attempted + [name];
        if name in removeFails {
          numErrors := numErrors + 1;
        }
        done := done + {name};
        pending := pending - {name};
      }
    }

    /** The exit status `main` ends with. */
    function ExitStatus(): (code: int)
      reads this
      ensures code == ExitCode(Current())
      ensures code == 0 <==> numErrors == 0 && !signalFlag
    {
      ExitCode(Current())
    }
  }

  /**
   * The whole coordinator: serve the events, sweep, report the exit status and
   * the names whose removal was tried. Every temp name still tracked is tried
   * exactly once.
   */
  method Coordinate(events: seq<Event>, removeFails: set<string>) returns (exitCode: int, attempted: seq<string>)
    ensures exitCode == ExitCode(CleanedUp(Loop(Init, events), removeFails))
    ensures multiset(attempted) == multiset(Loop(Init, events).tracked)
  {
    var c := new Coordinator();
    c.Serve(events);
    attempted := c.Cleanup(removeFails);
    exitCode := c.ExitStatus();
  }
}

=== FILE: download.dfy ===
/**
 * One worker's handling of one URL: `maybeDownload`, `downloadToTmpFile` and
 * `downloadToWriteCloser`. Every outcome of the network and the file system
 * is an input; the temp-file notices sent to the coordinator are returned as
 * a list of steps, in the order the code performs them.
 */
module Download {
  import opened Wrappers
  import opened Paths

  /** An error value: an opaque one from a library call, or the code's own bad-status error. */
  datatype Error = IoError(msg: string) | BadStatus(status: string)

  /** The "first error wins" rule of the deferred `Close` calls. */
  function FirstError(first: Option<Error>, second: Option<Error>): (r: Option<Error>)
    ensures r.None? <==> first.None? && second.None?
    ensures first.Some? ==> r == first
    ensures r.Some? ==> r == first || r == second
  {
    if first.Some? then first else second
  }

  /** What `http.Get` gave: an error, or a response with its status. */
  datatype HttpOutcome = GetFailed(err: Error) | Responded(statusCode: int, status: string)

  const StatusOK := 200

  /**
   * `downloadToWriteCloser`: a failed request is returned as it is (no body to
   * close); a status other than 200 is an error, and otherwise the copy error;
   * the body's close error counts only when there was no earlier error.
   */
  function DownloadToWriter(get: HttpOutcome, copyErr: Option<Error>, bodyCloseErr: Option<Error>): (r: Option<Error>)
    ensures r.None? <==> get.Responded? && get.statusCode == StatusOK && copyErr.None? && bodyCloseErr.None?
    ensures get.GetFailed? ==> r == Some(get.err)
    ensures get.Responded? && get.statusCode != StatusOK ==> r == Some(BadStatus(get.status))
    ensures get.Responded? && get.statusCode == StatusOK && copyErr.Some? ==> r == copyErr
    ensures get.Responded? && get.statusCode == StatusOK && copyErr.None? ==> r == bodyCloseErr
  {
    match get
    case GetFailed(e) => Some(e)
    case Responded(code, status) =>
      FirstError(if code != StatusOK then Some(BadStatus(status)) else copyErr, bodyCloseErr)
  }

  /** The outcomes of everything that can fail while one URL is transferred into a temp file. */
  datatype Transfer = Transfer(
    filterErr: Option<Error>,       // the output filter (identity or xz) failed to start
    get: HttpOutcome,
    copyErr: Option<Error>,         // copying the body into the writer
    bodyCloseErr: Option<Error>,    // closing the response body
    writerCloseErr: Option<Error>)  // closing the (filtered) temp file

  /** The actions of `downloadToTmpFile`, in order; `ReportTemp` is the send on the temp-name channel. */
  datatype Step = CreateTemp | ReportTemp(name: string) | OpenFilter | Fetch | CloseWriter

  datatype TmpOutcome = TmpOutcome(name: string, err: Option<Error>, steps: seq<Step>)

  /** The temp names reported by `steps`, in order. */
  function Reported(steps: seq<Step>): seq<string>
  {
    if steps == [] then []
    else (if steps[0].ReportTemp? then [steps[0].name] else []) + Reported(steps[1..])
  }

  lemma {:induction false} ReportedNone(steps: seq<Step>)
    requires forall i :: 0 <= i < |steps| ==> !steps[i].ReportTemp?
    ensures Reported(steps) == []
  {
    if steps != [] {
      ReportedNone(steps[1..]);
    }
  }

  /**
   * `downloadToTmpFile`: create the temp file (`created` is its name or the
   * error), report its name, open the filter, download, close the writer. A
   * filter error returns an empty name although the file exists: it is left for
   * the coordinator, which was told about it.
   */
  function DownloadToTmpFile(created: Result<string, Error>, t: Transfer): (r: TmpOutcome)
    ensures created.Failure? ==> r == TmpOutcome("", Some(created.error), [CreateTemp])
    ensures created.Success? ==> |r.steps| >= 3 && r.steps[0] == CreateTemp && r.steps[1] == ReportTemp(created.value)
    ensures Reported(r.steps) == if created.Success? then [created.value] else []
    ensures forall j :: 0 <= j < |r.steps| && (r.steps[j].OpenFilter? || r.steps[j].Fetch?) ==>
      created.Success? && 1 < j && r.steps[1] == ReportTemp(created.value)
    ensures r.name == "" || (created.Success? && r.name == created.value)
    ensures r.err.None? <==>
      created.Success? && t.filterErr.None? && DownloadToWriter(t.get, t.copyErr, t.bodyCloseErr).None? && t.writerCloseErr.None?
    ensures created.Success? && t.filterErr.Some? ==> r.name == "" && r.err == t.filterErr
    // the download's own error wins over the writer's close error, and the name comes back even on failure
    ensures created.Success? && t.filterErr.None? ==>
      r.name == created.value && r.err == FirstError(DownloadToWriter(t.get, t.copyErr, t.bodyCloseErr), t.writerCloseErr)
  {
    match created
    case Failure(e) => TmpOutcome("", Some(e), [CreateTemp])
    case Success(name) =>
      if t.filterErr.Some? then
        var steps := [CreateTemp, ReportTemp(name), OpenFilter];
        assert Reported(steps) == [name] by {
          assert steps[1..] == [ReportTemp(name), OpenFilter] && steps[1..][1..] == [OpenFilter];
          assert Reported([OpenFilter]) == [] by { assert [OpenFilter][1..] == []; }
        }
        TmpOutcome("", t.filterErr, steps)
      else
        var steps := [CreateTemp, ReportTemp(name), OpenFilter, Fetch, CloseWriter];
        assert Reported(steps) == [name] by {
          var after := [OpenFilter, Fetch, CloseWriter];
          assert steps[1..] == [ReportTemp(name)] + after && steps[1..][1..] == after;
          ReportedNone(after);
        }
        var err := FirstError(DownloadToWriter(t.get, t.copyErr, t.bodyCloseErr), t.writerCloseErr);
        TmpOutcome(name, err, steps)
  }

  /** `os.Stat` on the local name: the file is there, it is not, or another error. */
  datatype StatOutcome = Present | Absent | StatFailed(err: Error)

  /** The `result` record a worker sends to the coordinator. */
  datatype DownloadResult = DownloadResult(url: string, localName: string, tmpName: string, alreadyExists: bool, err: Option<Error>)

  /** A result together with the steps its worker performed. */
  datatype Attempt = Attempt(result: DownloadResult, steps: seq<Step>)

  /**
   * `maybeDownload` for output directory `dir` and extension `ext`. `parsed` is
   * what `url.Parse` gave (the URL's path, or the error), `stat` what `os.Stat`
   * gave on the local name, `created` what `ioutil.TempFile` gave.
   */
  function MaybeDownload(dir: string, ext: string, url: string, parsed: Result<string, Error>,
                         stat: StatOutcome, created: Result<string, Error>, t: Transfer): (a: Attempt)
    ensures a.result.url == url
    ensures parsed.Failure? ==> a == Attempt(DownloadResult(url, "", "", false, Some(parsed.error)), [])
    ensures parsed.Success? ==> a.result.localName == LocalName(dir, parsed.value, ext)
    ensures parsed.Success? && stat.Present? ==> a.result.alreadyExists && a.result.err.None? && a.result.tmpName == "" && a.steps == []
    ensures parsed.Success? && stat.StatFailed? ==>
      !a.result.alreadyExists && a.result.err == Some(stat.err) && a.result.tmpName == "" && a.steps == []
    ensures parsed.Success? && stat.Absent? ==>
      && !a.result.alreadyExists
      && a.steps == DownloadToTmpFile(created, t).steps
      && a.steps != [] && a.steps[0] == CreateTemp
      && a.result.tmpName == DownloadToTmpFile(created, t).name
      && a.result.err == DownloadToTmpFile(created, t).err
      && (a.result.err.None? <==>
            created.Success? && t.filterErr.None? && DownloadToWriter(t.get, t.copyErr, t.bodyCloseErr).None? && t.writerCloseErr.None?)
    ensures a.result.alreadyExists ==> a.result.err.None? && a.steps == []
    ensures a.result.tmpName == "" || a.result.tmpName in Reported(a.steps)
    // only a complete, error-free transfer yields a result the coordinator publishes
    ensures !a.result.alreadyExists && a.result.err.None? ==>
      && parsed.Success? && stat.Absent? && created.Success?
      && a.result.tmpName == created.value
      && t.filterErr.None? && t.writerCloseErr.None?
      && DownloadToWriter(t.get, t.copyErr, t.bodyCloseErr).None?
  {
    match parsed
    case Failure(e) => Attempt(DownloadResult(url, "", "", false, Some(e)), [])
    case Success(path) =>
      var local := LocalName(dir, path, ext);
      match stat
      case Present => Attempt(DownloadResult(url, local, "", true, None), [])
      case StatFailed(e) => Attempt(DownloadResult(url, local, "", false, Some(e)), [])
      case Absent =>
        var tmp := DownloadToTmpFile(created, t);
        Attempt(DownloadResult(url, local, tmp.name, false, tmp.err), tmp.steps)
  }
}

=== FILE: index.dfy ===
/**
 * The index paginator, `processIndex`: fetch index pages at increasing
 * offsets, check each page's metadata, and emit the download URLs it lists.
 * The server is a finite sequence of responses, one per request, in request
 * order; the URL queue is the sequence of emitted URLs.
 */
module Index {
  import opened Wrappers

  /** `ooniAPILimit`: the page size asked for and expected back. */
  const ApiLimit: nat := 1000

  /** One decoded index page: its metadata and the download URLs of its results. */
  datatype Page = Page(count: nat, offset: nat, limit: nat, urls: seq<string>)

  /** What one `fetchIndexPage` call gave: a page, or an HTTP, status or JSON error. */
  datatype Response = Fetched(page: Page) | FetchFailed(cause: string)

  datatype IndexError =
    | RequestFailed(cause: string)
    | LimitMismatch(got: nat)
    | OffsetMismatch(expected: nat, got: nat)
    | ZeroResults
    | OffsetExceedsCount(offset: nat, count: nat)
    | NoResponse   // the modelled server has no answer left for a request

  /**
   * The result of `processIndex`: the URLs sent to the download queue (also
   * those sent before a failure), the error if any, the last value written to
   * `progress.total`, and the offset of every request made, in order.
   */
  datatype Outcome = Outcome(urls: seq<string>, err: Option<IndexError>, total: nat, requested: seq<nat>)

  /**
   * The sanity checks of one page fetched at `offset`, in the order the code
   * makes them: the limit, the offset, at least one result unless the count is
   * zero, and the new offset not beyond the count.
   */
  function Rejection(p: Page, offset: nat): (r: Option<IndexError>)
    ensures r.None? <==>
      && p.limit == ApiLimit
      && p.offset == offset
      && (p.count > 0 ==> p.urls != [])
      && offset + |p.urls| <= p.count
    ensures p.limit != ApiLimit ==> r == Some(LimitMismatch(p.limit))
    ensures p.limit == ApiLimit && p.offset != offset ==> r == Some(OffsetMismatch(offset, p.offset))
  {
    if p.limit != ApiLimit then Some(LimitMismatch(p.limit))
    else if offset != p.offset then Some(OffsetMismatch(offset, p.offset))
    else if p.count > 0 && |p.urls| == 0 then Some(ZeroResults)
    else if offset + |p.urls| > p.count then Some(OffsetExceedsCount(offset + |p.urls|, p.count))
    else None
  }

  /** `urls` and `offsets` happened before `o`. */
  function Prepend(urls: seq<string>, offsets: seq<nat>, o: Outcome): Outcome
  {
    Outcome(urls + o.urls, o.err, o.total, offsets + o.requested)
  }

  /**
   * The loop of `processIndex` from a given offset and progress total, over the
   * responses still to come. `progress.total` takes the page's count once the
   * first three checks pass, so an "offset exceeds count" error leaves it set.
   */
  function Run(rs: seq<Response>, offset: nat, total: nat): (o: Outcome)
    ensures |o.requested| >= 1 && o.requested[0] == offset
    ensures |o.requested| <= |rs| + 1
    decreases |rs|
  {
    if rs == [] then Outcome([], Some(NoResponse), total, [offset])
    else match rs[0]
      case FetchFailed(cause) => Outcome([], Some(RequestFailed(cause)), total, [offset])
      case Fetched(p) =>
        match Rejection(p, offset)
        case Some(e) => Outcome([], Some(e), if e.OffsetExceedsCount? then p.count else total, [offset])
        case None =>
          var next := offset + |p.urls|;
          if next == p.count then Outcome(p.urls, None, p.count, [offset])
          else Prepend(p.urls, [offset], Run(rs[1..], next, p.count))
  }

  /**
   * `processIndex`: request pages from offset 0 until the offset reaches the
   * latest count, emitting each accepted page's URLs after its checks.
   */
  method ProcessIndex(responses: seq<Response>) returns (o: Outcome)
    ensures o == Run(responses, 0, 0)
    ensures o.requested[0] == 0
    ensures o.err.None? ==> |o.urls| == o.total
  {
    var offset: nat := 0;
    var total: nat := 0;
    var urls: seq<string> := [];
    var requested: seq<nat> := [];
    var i := 0;
    while i < |responses|
      invariant i <= |responses|
      invariant |urls| == offset
      invariant Run(responses, 0, 0) == Prepend(urls, requested, Run(responses[i..], offset, total))
    {
      ghost var rest := responses[i..];
      ghost var before, asked := urls, requested;
      assert rest != [] && rest[0] == responses[i];
      requested := requested + [offset];
      var page: Page;
      match responses[i] {
        case FetchFailed(cause) =>
          StopsWith(before, asked, rest, offset, total);
          return Outcome(urls, Some(RequestFailed(cause)), total, requested);
        case Fetched(p) =>
          page := p;
      }
      if page.limit != ApiLimit {
        StopsWith(before, asked, rest, offset, total);
        return Outcome(urls, Some(LimitMismatch(page.limit)), total, requested);
      }
      if offset != page.offset {
        StopsWith(before, asked, rest, offset, total);
        return Outcome(urls, Some(OffsetMismatch(offset, page.offset)), total, requested);
      }
      if page.count > 0 && |page.urls| == 0 {
        StopsWith(before, asked, rest, offset, total);
        return Outcome(urls, Some(ZeroResults), total, requested);
      }
      ghost var start := offset;
      total := page.count;
      offset := offset + |page.urls|;
      if offset > page.count {
        StopsWith(before, asked, rest, start, total);
        return Outcome(urls, Some(OffsetExceedsCount(offset, page.count)), total, requested);
      }
      urls := Emit(urls, page.urls);
      if offset == page.count {
        StopsWith(before, asked, rest, start, total);
        return Outcome(urls, None, total, requested);
      }
      GoesOnWith(before, asked, rest, start, total);
      assert rest[1..] == responses[i + 1..];
      i := i + 1;
    }
    requested := requested + [offset];
    assert responses[i..] == [];
    return Outcome(urls, Some(NoResponse), total, requested);
  }

  /** Send each URL of a page to the download queue, in order. */
  method Emit(queue: seq<string>, pageUrls: seq<string>) returns (r: seq<string>)
    ensures r == queue + pageUrls
  {
    r := queue;
    for j := 0 to |pageUrls|
      invariant r == queue + pageUrls[..j]
    {
      r := r + [pageUrls[j]];
    }
    assert pageUrls[..|pageUrls|] == pageUrls;
  }

  /** The run over `rs` stops at its first request: what came before, then that request's outcome. */
  lemma StopsWith(urls: seq<string>, asked: seq<nat>, rs: seq<Response>, offset: nat, total: nat)
    requires rs != []
    requires rs[0].FetchFailed? || Rejection(rs[0].page, offset).Some? || offset + |rs[0].page.urls| == rs[0].page.count
    ensures var o := Run(rs, offset, total);
      && Prepend(urls, asked, o) == Outcome(urls + o.urls, o.err, o.total, asked + [offset])
      && o.urls == (if o.err.None? then rs[0].page.urls else [])
  {
  }

  /** The run over `rs` accepts its first page and goes on. */
  lemma GoesOnWith(urls: seq<string>, asked: seq<nat>, rs: seq<Response>, offset: nat, total: nat)
    requires rs != [] && rs[0].Fetched? && Rejection(rs[0].page, offset).None?
    requires offset + |rs[0].page.urls| != rs[0].page.count
    ensures Prepend(urls, asked, Run(rs, offset, total))
      == Prepend(urls + rs[0].page.urls, asked + [offset], Run(rs[1..], offset + |rs[0].page.urls|, rs[0].page.count))
  {
    PrependPrepend(urls, asked, rs[0].page.urls, [offset], Run(rs[1..], offset + |rs[0].page.urls|, rs[0].page.count));
  }

  /** A successful run ends with the offset, advanced by every URL queued, equal to the total. */
  lemma {:induction false} RunTotal(rs: seq<Response>, offset: nat, total: nat)
    requires Run(rs, offset, total).err.None?
    ensures offset + |Run(rs, offset, total).urls| == Run(rs, offset, total).total
    ensures |Run(rs, offset, total).requested| <= |rs|
    decreases |rs|
  {
    var p := rs[0].page;
    var next := offset + |p.urls|;
    if next != p.count {
      RunTotal(rs[1..], next, p.count);
    }
  }

  // ----- Reference description of a run, page by page -----

  function PageUrls(r: Response): seq<string>
  {
    if r.Fetched? then r.page.urls else []
  }

  /** The URLs of the fetched pages among `rs`, in order. */
  function UrlsOf(rs: seq<Response>): seq<string>
  {
    if rs == [] then [] else PageUrls(rs[0]) + UrlsOf(rs[1..])
  }

  lemma {:induction false} UrlsOfAppend(a: seq<Response>, b: seq<Response>)
    ensures UrlsOf(a + b) == UrlsOf(a) + UrlsOf(b)
  {
    if a == [] {
      assert a + b == b;
    } else {
      assert (a + b)[0] == a[0];
      assert (a + b)[1..] == a[1..] + b;
      UrlsOfAppend(a[1..], b);
      calc {
        UrlsOf(a + b);
        PageUrls(a[0]) + UrlsOf(a[1..] + b);
        PageUrls(a[0]) + (UrlsOf(a[1..]) + UrlsOf(b));
        (PageUrls(a[0]) + UrlsOf(a[1..])) + UrlsOf(b);
      }
    }
  }

  /** The offset requested for response `j` when the run started at `off`. */
  function OffsetAt(rs: seq<Response>, off: nat, j: nat): nat
    requires j <= |rs|
  {
    off + |UrlsOf(rs[..j])|
  }

  /** The offsets of the first `n` requests. */
  function Offsets(rs: seq<Response>, off: nat, n: nat): (r: seq<nat>)
    requires n <= |rs| + 1
    ensures |r| == n && forall j :: 0 <= j < n ==> r[j] == OffsetAt(rs, off, j)
  {
    if n == 0 then [] else Offsets(rs, off, n - 1) + [OffsetAt(rs, off, n - 1)]
  }

  lemma OffsetAtZero(rs: seq<Response>, off: nat)
    ensures OffsetAt(rs, off, 0) == off
  {
    assert rs[..0] == [];
  }

  /** Each request's offset is the previous one plus the number of results the previous page held. */
  lemma OffsetStep(rs: seq<Response>, off: nat, j: nat)
    requires j < |rs|
    ensures OffsetAt(rs, off, j + 1) == OffsetAt(rs, off, j) + |PageUrls(rs[j])|
  {
    assert rs[..j + 1] == rs[..j] + [rs[j]];
    UrlsOfAppend(rs[..j], [rs[j]]);
  }

  /** Offsets counted after the first page are offsets counted from the start, shifted by one. */
  lemma OffsetShift(rs: seq<Response>, off: nat, j: nat)
    requires j < |rs|
    ensures OffsetAt(rs, off, j + 1) == OffsetAt(rs[1..], off + |PageUrls(rs[0])|, j)
    ensures UrlsOf(rs[..j + 1]) == PageUrls(rs[0]) + UrlsOf(rs[1..][..j])
  {
    assert rs[..j + 1] == [rs[0]] + rs[1..][..j];
    UrlsOfAppend([rs[0]], rs[1..][..j]);
  }

  lemma OffsetsShift(rs: seq<Response>, off: nat, n: nat)
    requires 1 <= n <= |rs|
    ensures Offsets(rs, off, n) == [off] + Offsets(rs[1..], off + |PageUrls(rs[0])|, n - 1)
  {
    OffsetAtZero(rs, off);
    forall j | 1 <= j < n
      ensures Offsets(rs, off, n)[j] == Offsets(rs[1..], off + |PageUrls(rs[0])|, n - 1)[j - 1]
    {
      OffsetShift(rs, off, j - 1);
    }
  }

  /** Page `j` was accepted at its offset and left the offset below its count. */
  ghost predicate GoesOn(rs: seq<Response>, off: nat, j: nat)
    requires j < |rs|
  {
    && rs[j].Fetched?
    && Rejection(rs[j].page, OffsetAt(rs, off, j)).None?
    && OffsetAt(rs, off, j + 1) < rs[j].page.count
  }

  /** The first `n` pages were accepted and each left the offset below its count, so the run went on. */
  ghost predicate Continues(rs: seq<Response>, off: nat, n: nat)
  {
    n <= |rs| && forall j :: 0 <= j < n ==> GoesOn(rs, off, j)
  }

  /** The run went on for `n - 1` pages, and page `n` was accepted and brought the offset to its count. */
  ghost predicate Completes(rs: seq<Response>, off: nat, n: nat)
  {
    && 1 <= n <= |rs|
    && Continues(rs, off, n - 1)
    && rs[n - 1].Fetched?
    && Rejection(rs[n - 1].page, OffsetAt(rs, off, n - 1)).None?
    && OffsetAt(rs, off, n) == rs[n - 1].page.count
  }

  lemma GoesOnShift(rs: seq<Response>, off: nat, j: nat)
    requires 1 <= j < |rs|
    ensures GoesOn(rs, off, j) <==> GoesOn(rs[1..], off + |PageUrls(rs[0])|, j - 1)
  {
    OffsetShift(rs, off, j - 1);
    OffsetShift(rs, off, j);
    assert rs[1..][j - 1] == rs[j];
  }

  lemma ContinuesCons(rs: seq<Response>, off: nat, m: nat)
    requires rs != [] && GoesOn(rs, off, 0)
    ensures Continues(rs, off, m + 1) <==> Continues(rs[1..], off + |PageUrls(rs[0])|, m)
  {
    forall j | 1 <= j < |rs| ensures GoesOn(rs, off, j) <==> GoesOn(rs[1..], off + |PageUrls(rs[0])|, j - 1) {
      GoesOnShift(rs, off, j);
    }
    if Continues(rs[1..], off + |PageUrls(rs[0])|, m) {
      forall j | 0 <= j < m + 1 ensures GoesOn(rs, off, j) {
        if j > 0 {
          assert GoesOn(rs[1..], off + |PageUrls(rs[0])|, j - 1);
        }
      }
    }
    var tail, off1 := rs[1..], off + |PageUrls(rs[0])|;
    if Continues(rs, off, m + 1) {
      forall j | 0 <= j < m ensures GoesOn(tail, off1, j) {
        assert GoesOn(rs, off, j + 1);
      }
    }
  }

  /** The count a response reports, 0 for a failed fetch. */
  function CountOf(r: Response): nat
  {
    if r.Fetched? then r.page.count else 0
  }

  /** One accepted page that does not finish the run: its URLs, then the rest of the run. */
  lemma RunStep(rs: seq<Response>, off: nat, tot: nat)
    requires rs != [] && GoesOn(rs, off, 0)
    ensures Run(rs, off, tot)
      == Prepend(rs[0].page.urls, [off], Run(rs[1..], off + |rs[0].page.urls|, rs[0].page.count))
  {
    OffsetAtZero(rs, off);
    OffsetStep(rs, off, 0);
  }

  /**
   * While the pages keep being accepted without reaching their count, the run
   * emits exactly their URLs, requests exactly their offsets, and carries the
   * last count as the progress total.
   */
  lemma {:induction false} RunPrefix(rs: seq<Response>, off: nat, tot: nat, n: nat)
    requires Continues(rs, off, n)
    ensures Run(rs, off, tot)
      == Prepend(UrlsOf(rs[..n]), Offsets(rs, off, n),
                 Run(rs[n..], OffsetAt(rs, off, n), if n == 0 then tot else CountOf(rs[n - 1])))
  {
    if n == 0 {
      assert rs[..0] == [] && rs[0..] == rs;
      OffsetAtZero(rs, off);
    } else {
      assert GoesOn(rs, off, 0);
      var tail, off1 := rs[1..], off + |rs[0].page.urls|;
      ContinuesCons(rs, off, n - 1);
      RunPrefix(tail, off1, rs[0].page.count, n - 1);
      assert tail[n - 1..] == rs[n..];
      OffsetShift(rs, off, n - 1);
      assert n > 1 ==> tail[n - 2] == rs[n - 1];
      RunPrefixStep(rs, off, tot, n);
      assert UrlsOf(rs[..n]) == rs[0].page.urls + UrlsOf(tail[..n - 1]);
      OffsetsShift(rs, off, n);
    }
  }

  /** The inductive step of `RunPrefix`: one accepted page in front of a prefix of the rest. */
  lemma RunPrefixStep(rs: seq<Response>, off: nat, tot: nat, n: nat)
    requires 1 <= n <= |rs| && GoesOn(rs, off, 0)
    requires Run(rs[1..], off + |rs[0].page.urls|, rs[0].page.count)
      == Prepend(UrlsOf(rs[1..][..n - 1]), Offsets(rs[1..], off + |rs[0].page.urls|, n - 1),
                 Run(rs[n..], OffsetAt(rs, off, n), CountOf(rs[n - 1])))
    ensures Run(rs, off, tot)
      == Prepend(rs[0].page.urls + UrlsOf(rs[1..][..n - 1]), [off] + Offsets(rs[1..], off + |rs[0].page.urls|, n - 1),
                 Run(rs[n..], OffsetAt(rs, off, n), CountOf(rs[n - 1])))
  {
    RunStep(rs, off, tot);
    PrependPrepend(rs[0].page.urls, [off], UrlsOf(rs[1..][..n - 1]), Offsets(rs[1..], off + |rs[0].page.urls|, n - 1),
                   Run(rs[n..], OffsetAt(rs, off, n), CountOf(rs[n - 1])));
  }

  lemma PrependPrepend(a: seq<string>, ra: seq<nat>, b: seq<string>, rb: seq<nat>, o: Outcome)
    ensures Prepend(a, ra, Prepend(b, rb, o)) == Prepend(a + b, ra + rb, o)
  {
    assert a + (b + o.urls) == (a + b) + o.urls;
    assert ra + (rb + o.requested) == (ra + rb) + o.requested;
  }

  /** A run that completes at page `n` succeeds with the URLs of its `n` pages and the last count as total. */
  lemma RunSucceedsWhen(rs: seq<Response>, off: nat, tot: nat, n: nat)
    requires Completes(rs, off, n)
    ensures Run(rs, off, tot) == Outcome(UrlsOf(rs[..n]), None, rs[n - 1].page.count, Offsets(rs, off, n))
  {
    RunPrefix(rs, off, tot, n - 1);
    OffsetStep(rs, off, n - 1);
    var rest := rs[n - 1..];
    assert rest[0] == rs[n - 1];
    assert Run(rest, OffsetAt(rs, off, n - 1), if n == 1 then tot else CountOf(rs[n - 2]))
      == Outcome(rs[n - 1].page.urls, None, rs[n - 1].page.count, [OffsetAt(rs, off, n - 1)]);
    assert rs[..n] == rs[..n - 1] + [rs[n - 1]];
    UrlsOfAppend(rs[..n - 1], [rs[n - 1]]);
  }

  /**
   * A run that went on for `k` pages and whose request `k` fails (no response,
   * a fetch error, or a page rejected by a check) fails with that page's error,
   * having emitted the URLs of the first `k` pages and none of page `k`.
   */
  lemma RunFailsAt(rs: seq<Response>, off: nat, tot: nat, k: nat)
    requires Continues(rs, off, k)
    requires k == |rs| || rs[k].FetchFailed? || Rejection(rs[k].page, OffsetAt(rs, off, k)).Some?
    ensures Run(rs, off, tot).err.Some?
    ensures Run(rs, off, tot).urls == UrlsOf(rs[..k])
    ensures Run(rs, off, tot).requested == Offsets(rs, off, k + 1)
    ensures k < |rs| && rs[k].Fetched? ==> Run(rs, off, tot).err == Rejection(rs[k].page, OffsetAt(rs, off, k))
  {
    RunPrefix(rs, off, tot, k);
    assert k < |rs| ==> rs[k..][0] == rs[k];
  }

  /** Conversely, every successful run is one that completes at its last request. */
  lemma {:induction false} RunSuccessShape(rs: seq<Response>, off: nat, tot: nat)
    requires Run(rs, off, tot).err.None?
    ensures Completes(rs, off, |Run(rs, off, tot).requested|)
  {
    assert rs != [] && rs[0].Fetched? && Rejection(rs[0].page, off).None?;
    var p := rs[0].page;
    var off1 := off + |p.urls|;
    OffsetAtZero(rs, off);
    OffsetStep(rs, off, 0);
    if off1 != p.count {
      var tail := rs[1..];
      var m := |Run(tail, off1, p.count).requested|;
      assert |Run(rs, off, tot).requested| == m + 1 && Run(tail, off1, p.count).err.None? by {
        RunStep(rs, off, tot);
      }
      RunSuccessShape(tail, off1, p.count);
      assert Continues(rs, off, m) by {
        ContinuesCons(rs, off, m - 1);
      }
      assert tail[m - 1] == rs[m];
      assert OffsetAt(rs, off, m) == OffsetAt(tail, off1, m - 1) by {
        OffsetShift(rs, off, m - 1);
      }
      assert OffsetAt(rs, off, m + 1) == OffsetAt(tail, off1, m) by {
        OffsetShift(rs, off, m);
      }
    }
  }

  /** Conversely, every failed run went on for all but its last request, which failed. */
  lemma {:induction false} RunFailureShape(rs: seq<Response>, off: nat, tot: nat)
    requires Run(rs, off, tot).err.Some?
    ensures var k := |Run(rs, off, tot).requested| - 1;
      && Continues(rs, off, k)
      && (k == |rs| || rs[k].FetchFailed? || Rejection(rs[k].page, OffsetAt(rs, off, k)).Some?)
  {
    OffsetAtZero(rs, off);
    if rs != [] && rs[0].Fetched? && Rejection(rs[0].page, off).None? {
      var p := rs[0].page;
      var off1 := off + |p.urls|;
      var tail := rs[1..];
      assert GoesOn(rs, off, 0) by {
        OffsetStep(rs, off, 0);
      }
      var m := |Run(tail, off1, p.count).requested|;
      assert |Run(rs, off, tot).requested| == m + 1 && Run(tail, off1, p.count).err.Some? by {
        RunStep(rs, off, tot);
      }
      RunFailureShape(tail, off1, p.count);
      assert Continues(rs, off, m) by {
        ContinuesCons(rs, off, m - 1);
      }
      if m < |rs| {
        assert tail[m - 1] == rs[m];
        OffsetShift(rs, off, m - 1);
      }
    }
  }
}

=== FILE: paths.dfy ===
/**
 * The file-name derivation of `maybeDownload`: Go's `path.Base` on the URL
 * path, joined to the output directory, plus the output extension.
 */
module Paths {

  predicate NoSlash(s: string) { forall i :: 0 <= i < |s| ==> s[i] != '/' }

  /** The longest prefix of `p` that does not end in a slash. */
  function TrimTrailingSlashes(p: string): (r: string)
    ensures |r| <= |p| && r == p[..|r|]
    ensures r == [] || r[|r| - 1] != '/'
    ensures forall i :: |r| <= i < |p| ==> p[i] == '/'
  {
    if p != [] && p[|p| - 1] == '/' then TrimTrailingSlashes(p[..|p| - 1]) else p
  }

  /** The part of `p` after its last slash (all of `p` when it has none). */
  function LastSegment(p: string): (r: string)
    ensures |r| <= |p| && r == p[|p| - |r|..]
    ensures NoSlash(r)
    ensures |r| < |p| ==> p[|p| - |r| - 1] == '/'
  {
    if p == [] || p[|p| - 1] == '/' then [] else LastSegment(p[..|p| - 1]) + [p[|p| - 1]]
  }

  /**
   * Go's `path.Base`: "." for the empty path; otherwise trailing slashes are
   * dropped and the last element is returned, or "/" when nothing but
   * slashes was left.
   */
  function Base(p: string): (r: string)
    ensures r != []
    ensures r == "/" || NoSlash(r)
    ensures p == [] ==> r == "."
    ensures p != [] && NoSlash(p) ==> r == p
    ensures p != [] && (forall i :: 0 <= i < |p| ==> p[i] == '/') ==> r == "/"
  {
    if p == [] then "."
    else
      var s := LastSegment(TrimTrailingSlashes(p));
      if s == [] then "/" else s
  }

  /** `filepath.Join(dir, name)`, without the lexical clean-up of the result. */
  function Join(dir: string, name: string): string
  {
    dir + "/" + name
  }

  /** The local file name of a download: ooni-sync.go line 222. */
  function LocalName(dir: string, urlPath: string, ext: string): (r: string)
    ensures |r| >= |dir| + 1 + |ext|
    ensures r[..|dir| + 1] == dir + "/" && r[|r| - |ext|..] == ext
    ensures Base(urlPath) != "/" ==> Base(r[..|r| - |ext|]) == Base(urlPath)
    // the file sits directly in the output directory
    ensures Base(urlPath) != "/" ==> r[|dir| + 1..|r| - |ext|] != [] && NoSlash(r[|dir| + 1..|r| - |ext|])
  {
    var name := Base(urlPath);
    var r := Join(dir, name) + ext;
    assert r[..|r| - |ext|] == Join(dir, name);
    assert r[..|dir| + 1] == dir + "/";
    assert r[|dir| + 1..|r| - |ext|] == name;
    assert name != "/" ==> Base(Join(dir, name)) == name by {
      if name != "/" {
        BaseOfJoin(dir, name);
      }
    }
    r
  }

  /**
   * A trailing slash on a non-empty URL path changes nothing: the code raises
   * no error, `path.Base` just ignores the slash.
   */
  lemma BaseIgnoresTrailingSlash(p: string)
    requires p != []
    ensures Base(p + "/") == Base(p)
  {
    var q := p + "/";
    assert q[..|q| - 1] == p;
    assert TrimTrailingSlashes(q) == TrimTrailingSlashes(p);
  }

  lemma {:induction false} LastSegmentAfterSlash(prefix: string, s: string)
    requires |prefix| >= 1 && prefix[|prefix| - 1] == '/' && NoSlash(s)
    ensures LastSegment(prefix + s) == s
  {
    if s == [] {
      assert prefix + s == prefix;
    } else {
      var init := s[..|s| - 1];
      LastSegmentAfterSlash(prefix, init);
      assert (prefix + s)[..|prefix + s| - 1] == prefix + init;
    }
  }

  /** The base of a file placed in a directory is the file's own name: `Base` inverts `Join`. */
  lemma BaseOfJoin(dir: string, name: string)
    requires name != [] && NoSlash(name)
    ensures Base(Join(dir, name)) == name
  {
    var p := dir + "/" + name;
    assert p[|p| - 1] == name[|name| - 1];
    assert TrimTrailingSlashes(p) == p;
    LastSegmentAfterSlash(dir + "/", name);
  }
}

=== FILE: progress.dfy ===
/** The "n/total" prefix of every progress line: `progressCounter.format`. */
module Progress {
  import opened Text

  /**
   * `fmt.Sprintf("%*d/%s", len(totalString), n, totalString)`: `n` right-aligned
   * in a field as wide as the decimal rendering of `total`, a slash, then `total`.
   */
  function Format(n: nat, total: nat): (r: string)
    ensures |r| >= |Dec(n)| + 1 + |Dec(total)|
    // the field is as wide as the total, or as `n` when `n` is wider: no padding then
    ensures |r| == (if |Dec(n)| < |Dec(total)| then |Dec(total)| else |Dec(n)|) + 1 + |Dec(total)|
    ensures r[|r| - |Dec(total)| - 1] == '/' && r[|r| - |Dec(total)|..] == Dec(total)
    ensures r[|r| - |Dec(total)| - 1 - |Dec(n)|..|r| - |Dec(total)| - 1] == Dec(n)
    ensures forall i :: 0 <= i < |r| - |Dec(total)| - 1 - |Dec(n)| ==> r[i] == ' '
  {
    var t := Dec(total);
    var d := Dec(n);
    (if |d| < |t| then Spaces(|t| - |d|) else []) + d + "/" + t
  }

  /**
   * While the count of finished items has not passed the total, every line has
   * the same width: the counter field is exactly as wide as the total, holds
   * `n` padded on the left with spaces, and the slash sits at the same column.
   */
  lemma FormatAligned(n: nat, total: nat)
    requires n <= total
    ensures var w := |Dec(total)|;
      && |Format(n, total)| == 2 * w + 1
      && Format(n, total)[w] == '/'
      && Format(n, total)[..w] == Spaces(w - |Dec(n)|) + Dec(n)
      && Format(n, total)[w + 1..] == Dec(total)
  {
    DecLengthMonotone(n, total);
    var w := |Dec(total)|;
    var r := Format(n, total);
    if |Dec(n)| < w {
      assert r == Spaces(w - |Dec(n)|) + Dec(n) + "/" + Dec(total);
    } else {
      assert Spaces(0) == [];
      assert r == Dec(n) + "/" + Dec(total);
    }
    assert r[..w] == Spaces(w - |Dec(n)|) + Dec(n);
  }
}

=== FILE: query.dfy ===
/**
 * The query string of the index requests: `parseArgsToQuery`,
 * `canonicalizeQuery` and the parameter override of `fetchIndexPage`.
 * `url.Values` is a map from a key to its list of values.
 */
module Query {
  import opened Wrappers
  import opened Text

  type Values = map<string, seq<string>>

  const ProbeCC := "probe_cc"
  const ProbeASN := "probe_asn"

  datatype QueryError = MalformedParameter(arg: string)

  /** The values of `key`, empty when the key is absent (`url.Values.Get` on the whole list). */
  function Get(q: Values, key: string): seq<string>
  {
    if key in q then q[key] else []
  }

  /** `url.Values.Add`: append `value` to the list of `key`, creating it if needed. */
  function Add(q: Values, key: string, value: string): (r: Values)
    ensures r.Keys == q.Keys + {key}
    ensures r[key] == Get(q, key) + [value]
    ensures forall k :: k in q && k != key ==> r[k] == q[k]
  {
    q[key := Get(q, key) + [value]]
  }

  /** The index of the first `c` in `s`, if any. */
  function IndexOf(s: string, c: char): (r: Option<nat>)
    ensures r.Some? ==> r.value < |s| && s[r.value] == c && c !in s[..r.value]
    ensures r.None? ==> c !in s
  {
    if s == [] then None
    else if s[0] == c then Some(0)
    else match IndexOf(s[1..], c)
      case None => None
      case Some(i) =>
        assert s[..i + 1] == [s[0]] + s[1..][..i];
        Some(i + 1)
  }

  /** `strings.SplitN(arg, "=", 2)` when it yields two parts: the text before and after the first "=". */
  function SplitArg(arg: string): (r: Option<(string, string)>)
    ensures r.None? <==> '=' !in arg
    ensures r.Some? ==> arg == r.value.0 + "=" + r.value.1 && '=' !in r.value.0
  {
    match IndexOf(arg, '=')
    case None => None
    case Some(i) =>
      assert arg == arg[..i] + "=" + arg[i + 1..];
      Some((arg[..i], arg[i + 1..]))
  }

  /** An argument is accepted when it splits at a first "=" into a non-empty key and a non-empty value. */
  predicate WellFormed(arg: string)
  {
    SplitArg(arg).Some? && SplitArg(arg).value.0 != "" && SplitArg(arg).value.1 != ""
  }

  /** Splitting inverts joining: a key without "=" and a value, joined by "=", split back into the two. */
  lemma SplitArgOfJoined(key: string, value: string)
    requires '=' !in key
    ensures SplitArg(key + "=" + value) == Some((key, value))
  {
    var arg := key + "=" + value;
    assert arg[|key|] == '=';
    assert arg[..|key|] == key;
  }

  /** The index of the first malformed argument, `|args|` when there is none. */
  function FirstMalformed(args: seq<string>): (k: nat)
    ensures k <= |args|
    ensures forall i :: 0 <= i < k ==> WellFormed(args[i])
    ensures k < |args| ==> !WellFormed(args[k])
  {
    if args == [] then 0
    else if !WellFormed(args[0]) then 0
    else 1 + FirstMalformed(args[1..])
  }

  lemma {:induction false} FirstMalformedIs(args: seq<string>, k: nat)
    requires k <= |args|
    requires forall i :: 0 <= i < k ==> WellFormed(args[i])
    requires k < |args| ==> !WellFormed(args[k])
    ensures FirstMalformed(args) == k
  {
    if args != [] && k > 0 {
      FirstMalformedIs(args[1..], k - 1);
    }
  }

  /** The query built by adding every argument's key and value in order (the loop of `parseArgsToQuery`). */
  function AddArgs(args: seq<string>): Values
    requires forall i :: 0 <= i < |args| ==> WellFormed(args[i])
  {
    if args == [] then map[]
    else
      assert WellFormed(args[|args| - 1]);
      var last := SplitArg(args[|args| - 1]).value;
      Add(AddArgs(args[..|args| - 1]), last.0, last.1)
  }

  /** The values given for `key`, in argument order: an independent description of the parsed query. */
  function ValuesFor(args: seq<string>, key: string): seq<string>
    requires forall i :: 0 <= i < |args| ==> WellFormed(args[i])
  {
    if args == [] then []
    else
      assert WellFormed(args[|args| - 1]);
      var last := SplitArg(args[|args| - 1]).value;
      ValuesFor(args[..|args| - 1], key) + (if last.0 == key then [last.1] else [])
  }

  /**
   * The parsed query holds each key that some argument names, and under it
   * the values of those arguments in argument order.
   */
  lemma {:induction false} AddArgsCollects(args: seq<string>, key: string)
    requires forall i :: 0 <= i < |args| ==> WellFormed(args[i])
    ensures Get(AddArgs(args), key) == ValuesFor(args, key)
    ensures key in AddArgs(args) <==> ValuesFor(args, key) != []
  {
    if args != [] {
      AddArgsCollects(args[..|args| - 1], key);
    }
  }

  lemma AddArgsSnoc(args: seq<string>, i: nat)
    requires i < |args| && forall j :: 0 <= j <= i ==> WellFormed(args[j])
    ensures AddArgs(args[..i + 1]) == Add(AddArgs(args[..i]), SplitArg(args[i]).value.0, SplitArg(args[i]).value.1)
  {
    assert args[..i + 1][..i] == args[..i];
    assert args[..i + 1][i] == args[i];
  }

  /**
   * `parseArgsToQuery`: stops at the first argument that has no "=", an empty
   * key or an empty value, returning the query built so far and an error
   * naming that argument; otherwise every argument has been added.
   */
  method ParseArgsToQuery(args: seq<string>) returns (query: Values, err: Option<QueryError>)
    ensures err.None? <==> forall i :: 0 <= i < |args| ==> WellFormed(args[i])
    ensures err.Some? ==> err.value == MalformedParameter(args[FirstMalformed(args)])
    ensures query == AddArgs(args[..FirstMalformed(args)])
  {
    query := map[];
    for i := 0 to |args|
      invariant forall j :: 0 <= j < i ==> WellFormed(args[j])
      invariant query == AddArgs(args[..i])
    {
      var parts := SplitArg(args[i]);
      if parts.None? || parts.value.0 == "" || parts.value.1 == "" {
        FirstMalformedIs(args, i);
        return query, Some(MalformedParameter(args[i]));
      }
      AddArgsSnoc(args, i);
      query := Add(query, parts.value.0, parts.value.1);
    }
    assert args[..|args|] == args;
    FirstMalformedIs(args, |args|);
    return query, None;
  }

  /** A `probe_asn` value: an "AS" prefix on a bare 32-bit decimal number, then upper-casing. */
  function CanonAsn(v: string): string
  {
    ToUpper(if ParseUint32(v).Some? then "AS" + v else v)
  }

  function CanonValue(key: string, v: string): string
  {
    if key == ProbeCC then ToUpper(v) else if key == ProbeASN then CanonAsn(v) else v
  }

  predicate Rewritten(key: string) { key == ProbeCC || key == ProbeASN }

  /** The canonical list of one key: each value rewritten in place, order and number kept. */
  function CanonValues(key: string, vs: seq<string>): (r: seq<string>)
    ensures |r| == |vs|
    ensures forall i :: 0 <= i < |vs| ==> r[i] == CanonValue(key, vs[i])
  {
    if Rewritten(key) then seq(|vs|, i requires 0 <= i < |vs| => CanonValue(key, vs[i])) else vs
  }

  /**
   * The canonical form of the keys in `keys`. A rewritten key is added value by
   * value, so with an empty list it does not appear; any other key keeps its
   * list as it is, empty or not.
   */
  function CanonicalOn(q: Values, keys: set<string>): Values
  {
    map k | k in keys && k in q && (Rewritten(k) ==> q[k] != []) :: CanonValues(k, q[k])
  }

  lemma CanonicalOnStep(q: Values, done: set<string>, key: string)
    requires key in q && key !in done
    ensures Rewritten(key) && q[key] == [] ==> CanonicalOn(q, done + {key}) == CanonicalOn(q, done)
    ensures !(Rewritten(key) && q[key] == []) ==>
      CanonicalOn(q, done + {key}) == CanonicalOn(q, done)[key := CanonValues(key, q[key])]
  {
  }

  /** What `canonicalizeQuery` returns for `q`. */
  function Canonical(q: Values): (r: Values)
    ensures forall k :: k in q && !Rewritten(k) ==> k in r && r[k] == q[k]
    ensures forall k :: k in r ==> k in q && |r[k]| == |q[k]|
    ensures forall k :: k in r <==> k in q && (!Rewritten(k) || q[k] != [])
    ensures ProbeCC in r ==> forall i :: 0 <= i < |r[ProbeCC]| ==>
      r[ProbeCC][i] == ToUpper(q[ProbeCC][i])
    ensures ProbeASN in r ==> forall i :: 0 <= i < |r[ProbeASN]| ==>
      r[ProbeASN][i] == ToUpper(if ParseUint32(q[ProbeASN][i]).Some? then "AS" + q[ProbeASN][i] else q[ProbeASN][i])
  {
    CanonicalOn(q, q.Keys)
  }

  /** A `probe_asn` value already in canonical form is left alone. */
  lemma CanonAsnIdempotent(v: string)
    ensures CanonAsn(CanonAsn(v)) == CanonAsn(v)
  {
    var c := CanonAsn(v);
    if ParseUint32(v).Some? {
      assert c[0] == 'A' && !IsDigit(c[0]);
      ToUpperIdempotent("AS" + v);
    } else {
      ToUpperKeepsDigits(v);
      ToUpperIdempotent(v);
    }
  }

  /** Canonicalizing twice is canonicalizing once: "AS" is never added to a value that already has it. */
  lemma CanonicalIdempotent(q: Values)
    ensures Canonical(Canonical(q)) == Canonical(q)
  {
    var c := Canonical(q);
    forall k | k in c
      ensures CanonValues(k, c[k]) == c[k]
    {
      if k == ProbeCC {
        forall i | 0 <= i < |c[k]| ensures ToUpper(c[k][i]) == c[k][i] {
          ToUpperIdempotent(q[k][i]);
        }
      } else if k == ProbeASN {
        forall i | 0 <= i < |c[k]| ensures CanonAsn(c[k][i]) == c[k][i] {
          CanonAsnIdempotent(q[k][i]);
        }
      }
    }
  }

  lemma CanonValuesSnoc(key: string, values: seq<string>, i: nat)
    requires i < |values|
    ensures CanonValues(key, values[..i + 1]) == CanonValues(key, values[..i]) + [CanonValue(key, values[i])]
  {
    assert values[..i + 1][..i] == values[..i];
  }

  lemma AddCanonStep(canon: Values, r: Values, key: string, values: seq<string>, i: nat)
    requires key !in canon && i < |values|
    requires i == 0 ==> r == canon
    requires i > 0 ==> r == canon[key := CanonValues(key, values[..i])]
    ensures Add(r, key, CanonValue(key, values[i])) == canon[key := CanonValues(key, values[..i + 1])]
  {
    var v := CanonValue(key, values[i]);
    var next := CanonValues(key, values[..i + 1]);
    CanonValuesSnoc(key, values, i);
    assert Get(r, key) + [v] == next;
    if i == 0 {
      assert Add(r, key, v) == canon[key := next];
    } else {
      assert r[key := next] == canon[key := next];
    }
  }

  /** The inner loop of `canonicalizeQuery`: add the rewritten values of `key` one by one. */
  method AddCanonValues(canon: Values, key: string, values: seq<string>) returns (r: Values)
    requires key !in canon
    ensures values == [] ==> r == canon
    ensures values != [] ==> r == canon[key := CanonValues(key, values)]
  {
    r := canon;
    for i := 0 to |values|
      invariant i == 0 ==> r == canon
      invariant i > 0 ==> r == canon[key := CanonValues(key, values[..i])]
    {
      AddCanonStep(canon, r, key, values, i);
      r := Add(r, key, CanonValue(key, values[i]));
    }
    assert values[..|values|] == values;
  }

  /**
   * `canonicalizeQuery`: visits the keys in some order, appending rewritten
   * values of `probe_cc` and `probe_asn` one by one and copying every other
   * key's list as it is.
   */
  method CanonicalizeQuery(query: Values) returns (canon: Values)
    ensures canon == Canonical(query)
  {
    canon := map[];
    var pending := query.Keys;
    while pending != {}
      invariant pending <= query.Keys
      invariant canon == CanonicalOn(query, query.Keys - pending)
      decreases |pending|
    {
      var key :| key in pending;
      ghost var done := query.Keys - pending;
      if Rewritten(key) {
        canon := AddCanonValues(canon, key, query[key]);
      } else {
        canon := canon[key := query[key]];
      }
      CanonicalOnStep(query, done, key);
      assert query.Keys - (pending - {key}) == done + {key};
      pending := pending - {key};
    }
  }

  const FixedKeys := {"order", "limit", "offset"}

  /**
   * The query of one index request: the user's keys, then "order", "limit"
   * and "offset" set, replacing whatever the user gave for them.
   */
  function IndexQuery(base: Values, limit: nat, offset: nat): (r: Values)
    ensures r.Keys == base.Keys + FixedKeys
    ensures r["order"] == ["asc"] && r["limit"] == [Dec(limit)] && r["offset"] == [Dec(offset)]
    ensures forall k :: k in base && k !in FixedKeys ==> r[k] == base[k]
  {
    base["order" := ["asc"]]["limit" := [Dec(limit)]]["offset" := [Dec(offset)]]
  }

  /** The query building of `fetchIndexPage`: copy every user key, then set the three fixed ones. */
  method BuildIndexQuery(base: Values, limit: nat, offset: nat) returns (query: Values)
    ensures query == IndexQuery(base, limit, offset)
  {
    query := map[];
    var pending := base.Keys;
    while pending != {}
      invariant pending <= base.Keys
      invariant query == map k | k in base.Keys - pending :: base[k]
      decreases |pending|
    {
      var key :| key in pending;
      query := query[key := base[key]];
      pending := pending - {key};
    }
    assert query == base;
    query := query["order" := ["asc"]];
    query := query["limit" := [Dec(limit)]];
    query := query["offset" := [Dec(offset)]];
  }
}

=== FILE: text.dfy ===
/**
 * Character-level helpers used by ooni-sync.go: ASCII upper-casing
 * (`strings.ToUpper` restricted to ASCII), decimal rendering (`%d`) and
 * decimal parsing with a 32-bit bound (`strconv.ParseUint(v, 10, 32)`).
 */
module Text {
  import opened Wrappers

  predicate IsDigit(c: char) { '0' <= c <= '9' }

  predicate IsLower(c: char) { 'a' <= c <= 'z' }

  predicate AllDigits(s: string) { forall i :: 0 <= i < |s| ==> IsDigit(s[i]) }

  /** ASCII upper-casing of one character; every other character is kept. */
  function UpperChar(c: char): (u: char)
    ensures !IsLower(u)
    ensures IsLower(c) ==> u as int == c as int - 32
    ensures !IsLower(c) ==> u == c
  {
    if IsLower(c) then (c as int - 32) as char else c
  }

  /** `strings.ToUpper` on ASCII text. */
  function ToUpper(s: string): (r: string)
    ensures |r| == |s|
    ensures forall i :: 0 <= i < |s| ==> r[i] == UpperChar(s[i])
    ensures forall i :: 0 <= i < |r| ==> !IsLower(r[i])
  {
    if s == [] then [] else [UpperChar(s[0])] + ToUpper(s[1..])
  }

  /** Upper-casing twice is upper-casing once. */
  lemma ToUpperIdempotent(s: string)
    ensures ToUpper(ToUpper(s)) == ToUpper(s)
  {
    assert forall i :: 0 <= i < |s| ==> ToUpper(ToUpper(s))[i] == ToUpper(s)[i];
  }

  /** Upper-casing never creates or destroys a digit, so it keeps a string's digits-only status. */
  lemma ToUpperKeepsDigits(s: string)
    ensures AllDigits(ToUpper(s)) <==> AllDigits(s)
    ensures AllDigits(s) ==> ToUpper(s) == s
  {
    if AllDigits(ToUpper(s)) {
      forall i | 0 <= i < |s| ensures IsDigit(s[i]) {
        assert IsDigit(ToUpper(s)[i]);
      }
    }
  }

  function DigitChar(d: nat): (c: char)
    requires d < 10
    ensures IsDigit(c)
  {
    ('0' as int + d) as char
  }

  function DigitValue(c: char): (d: nat)
    requires IsDigit(c)
    ensures d < 10 && DigitChar(d) == c
  {
    c as int - '0' as int
  }

  /** The value of a string of decimal digits, most significant first. */
  function Value(s: string): nat
    requires AllDigits(s)
  {
    if s == [] then 0 else 10 * Value(s[..|s| - 1]) + DigitValue(s[|s| - 1])
  }

  /** `fmt.Sprintf("%d", n)`: the decimal rendering of `n`, without leading zeros. */
  function Dec(n: nat): (r: string)
    ensures |r| >= 1 && AllDigits(r)
    ensures r[0] == '0' ==> n == 0
  {
    if n < 10 then [DigitChar(n)] else Dec(n / 10) + [DigitChar(n % 10)]
  }

  /** Reading back the rendering of `n` yields `n`. */
  lemma {:induction false} ValueOfDec(n: nat)
    ensures Value(Dec(n)) == n
  {
    if n >= 10 {
      ValueOfDec(n / 10);
      var s := Dec(n);
      assert s[..|s| - 1] == Dec(n / 10);
    }
  }

  /** A digit string with no leading zero is the rendering of its own value. */
  lemma {:induction false} DecOfValue(s: string)
    requires |s| >= 1 && AllDigits(s)
    requires s[0] == '0' ==> |s| == 1
    ensures Dec(Value(s)) == s
  {
    var init := s[..|s| - 1];
    if |s| > 1 {
      DecOfValue(init);
      PositiveValue(init);
      var v := Value(s);
      assert v / 10 == Value(init) && v % 10 == DigitValue(s[|s| - 1]);
      assert s == init + [s[|s| - 1]];
    }
  }

  lemma {:induction false} PositiveValue(s: string)
    requires |s| >= 1 && AllDigits(s) && s[0] != '0'
    ensures Value(s) >= 1
  {
    if |s| > 1 {
      PositiveValue(s[..|s| - 1]);
    }
  }

  /** A smaller number never needs more digits. */
  lemma {:induction false} DecLengthMonotone(n: nat, m: nat)
    requires n <= m
    ensures |Dec(n)| <= |Dec(m)|
  {
    if n >= 10 {
      DecLengthMonotone(n / 10, m / 10);
    }
  }

  /**
   * `strconv.ParseUint(s, 10, 32)`: succeeds exactly on a non-empty string of
   * decimal digits (leading zeros allowed, no sign, no underscores) whose value
   * fits in 32 bits.
   */
  function ParseUint32(s: string): (r: Option<nat>)
    ensures r.Some? ==> |s| >= 1 && AllDigits(s) && r.value < 0x1_0000_0000
    ensures r.None? <==> (s == [] || !AllDigits(s) || Value(s) >= 0x1_0000_0000)
  {
    if |s| >= 1 && AllDigits(s) && Value(s) < 0x1_0000_0000 then Some(Value(s)) else None
  }

  /** Every 32-bit number's rendering parses back to that number. */
  lemma ParseUint32OfDec(n: nat)
    requires n < 0x1_0000_0000
    ensures ParseUint32(Dec(n)) == Some(n)
  {
    ValueOfDec(n);
  }

  /** A string of `n` spaces, as produced by the width padding of `%*d`. */
  function Spaces(n: nat): (r: string)
    ensures |r| == n && forall i :: 0 <= i < n ==> r[i] == ' '
  {
    if n == 0 then [] else [' '] + Spaces(n - 1)
  }
}

=== FILE: wrappers.dfy ===
/** Option and Result, used wherever the Go code returns a value together with an `error`. */
module Wrappers {

  datatype Option<+T> = None | Some(value: T)

  datatype Result<+T, +E> = Success(value: T) | Failure(error: E)
}
